=== FILE: README.md ===
# Crash game round engine

A Dafny model of the round engine of a Telegram "multiplier crash" betting
game (`server.js`). One authoritative game state cycles through
`waiting → countdown → flying → crashed → waiting`. A crash point is drawn
when a round opens, or taken once from an admin override. Players bet during
the countdown; their stake is debited at once. While the multiplier climbs
by 0.01 per tick, bets are cashed out by hand or automatically at their
threshold. Bets still active when the multiplier reaches the crash point
are lost.

Layout:

- `options.dfy`: `Option`, for the source's `null` slots.
- `crash_points.dfy` (module `CrashPoints`): `generateCrashPoint` as
  functions of the two random draws, and the crash-point finding below.
- `ledger.dfy` (module `Ledger`): bets, user records, the per-bet
  operations (debit, settle, credit, forfeit), and the ledger invariant
  `Balanced`. `Balanced` says that every user's record equals their record at
  round start adjusted by the effect of their bets in the round. It implies
  three things. Balances change only at the debit (`place_bet`) and the
  credit (`processCashout`). Each bet is accounted for exactly once. Games
  played, games won and total winnings agree with the bets.
- `engine.dfy` (module `Engine`): class `Game`, holding the fields of
  `gameState` and `adminNextCrash`. The timers are explicit fields: one per
  `setInterval`, and a count of scheduled `setTimeout` restarts. Each tick
  and each handler is a method that runs as one atomic step. The invariant
  `Valid()` holds the ledger, says that exactly the current phase's timer
  is armed, bounds the countdown, and says that a flying multiplier is
  below the crash point once the first flight tick has passed. At the 1.00
  start of a flight it may already equal or exceed the crash point: after
  the 3% instant crash, or with an override at or below 1.00.

Money, multipliers and crash points are Dafny `real`s, so they are exact.
`Math.random` draws, the round id, and the admin-key check (a boolean) are
parameters.

`place_bet` does not check that the amount is positive (server.js:251-259):
besides the phase and unknown-user guards, its only check on the amount is
that the balance is not below it. So `PlaceBet`
accepts any amount the balance covers, including zero and negative amounts,
and a negative amount raises the balance.

## Model

| member | source | states |
|---|---|---|
| CrashPoints.AsWrittenCrashPoint | server.js:59-72 | The generator as written: a pending override is returned verbatim, the first draw below 0.03 gives exactly 1.00, and any other draw gives the as-written transform clamped to at least 1.01 (finding 1 shows that transform is already ≥ 99). |
| CrashPoints.CrashPoint | server.js:59-72 | The generator with the corrected transform of finding 1, which the engine uses: a pending override is returned verbatim, the first draw below 0.03 gives exactly 1.00, and any other draw gives a value in [1.01, 99). With no override the result is always ≥ 1.00. |
| CrashPoints.AsWrittenNeverBelow99 | server.js:67-71 | As written, every non-instant crash point is ≥ 99.00, and the transform always exceeds 1.01, so the clamp never applies (finding 1). |
| CrashPoints.AsWrittenSmallestDraw | server.js:71 | As written, the smallest second draw (0) with a first draw of 0.5 gives a 99.00 crash. |
| CrashPoints.QuotientBounds | server.js:71 | `99 / (1 - r*0.99)` lies in [99, 9900) for every draw in [0, 1). |
| CrashPoints.IntendedDrawBounds | server.js:71 | The corrected transform lies in [0.99, 99). |
| CrashPoints.IntendedLowCrashes | server.js:71 | With the corrected transform the clamp takes effect: the smallest draw crashes at exactly 1.01, and every second draw up to 0.5 crashes below 2.00. |
| Ledger.StoredThreshold | server.js:266 | A stored threshold exists exactly when a non-zero one was given, and then equals it (`autoCashout \|\| null`). |
| Ledger.FirstActiveBet | server.js:292 | Returns the index of the caller's first active bet, with no earlier active bet of theirs, or none when they have no active bet. |
| Ledger.SettlementIsOneWay | server.js:125-129 | The auto-cashout scan and crash resolution keep each bet's owner, stake and threshold, and never change a settled bet. After the scan no bet is still due, and scanning again at the same multiplier changes nothing. After resolution no bet is active. |
| Ledger.OneWayTransitive | server.js:125-134 | Helper for `FlyTick`, which settles auto-cashouts and then may crash in the same tick: one-way evolution of the bet list composes across those two steps. |
| Ledger.ResolveKeepsMoney | server.js:145-154 | Crash resolution leaves every user's balance, games won and total winnings unchanged; only games played can grow. |
| Ledger.NetEffectAppend | server.js:270 | Appending a bet adds exactly that bet's effect to its owner's account. |
| Ledger.NetEffectUpdate | server.js:179 | Changing one bet's status changes its owner's account by exactly the difference between the two effects. |
| Ledger.NetEffectAbsent | server.js:226-230 | A user with no bets in the round has no net effect from the round. |
| Ledger.RoundStartBalanced | server.js:82 | A round opens with an empty bet list and balanced books; `StartRound` uses it when it resets the bets. |
| Ledger.PlacePreserves | server.js:259-270 | Debiting the stake and appending the active bet keeps the ledger balanced. |
| Ledger.SettlePreserves | server.js:177-190 | Settling an active bet at multiplier m and crediting amount·m keeps the ledger balanced. The credit also adds one game played, one game won, and amount·m − amount to total winnings. |
| Ledger.ForfeitPreserves | server.js:145-152 | Marking an active bet lost and adding one game played for its owner keeps the ledger balanced. |
| Ledger.JoinPreserves | server.js:226-230 | Creating a new user keeps the ledger balanced. |
| Engine.Game.constructor | server.js:45-56 | The initial state is `waiting`, countdown 10, multiplier 1.00, no bets, no override and no timers, over the stored users. |
| Engine.Game.GenerateCrashPoint | server.js:59-64 | Returns `CrashPoint` of the old override slot and the draws, and leaves the slot empty, so an override is used by one round only. |
| Engine.Game.StartRound | server.js:75-103 | Acts only from `waiting`. It opens `countdown` with the counter at 10, the given round id, a fresh crash point from the generator, an empty bet list and the countdown timer armed. In any other phase nothing changes. |
| Engine.Game.StartFlyingPhase | server.js:105-108 | Sets the phase to `flying`, the multiplier to 1.00, and arms the flight timer. |
| Engine.Game.CountdownTick | server.js:91-99 | Lowers the countdown by exactly 1. At ≤ 0 it disarms the countdown timer and starts the flight at 1.00. Otherwise nothing else changes. |
| Engine.Game.ProcessCashout | server.js:177-199 | Bet i becomes `cashed_out` at the current multiplier with win amount·m, and its owner is credited. The call returns the win and keeps the ledger balanced. |
| Engine.Game.AutoCashoutScan | server.js:125-129 | Settles, in list order, exactly the active bets whose threshold is ≤ the multiplier. Every other bet is unchanged and the ledger stays balanced. |
| Engine.Game.ForfeitActiveBets | server.js:145-154 | Every active bet becomes `lost`, every other bet is unchanged, and the ledger stays balanced. |
| Engine.Game.CrashGame | server.js:141-175 | The phase becomes `crashed` and active bets are lost. Cashed-out bets are untouched. No balance, games won or total winnings change. One round record with the round id, crash point and final bets is saved. One restart is scheduled. |
| Engine.Game.FlyTick | server.js:116-138 | Raises the multiplier by exactly 0.01 and settles the due auto-cashouts. If the new multiplier is ≥ the crash point, it disarms the flight timer and crashes; otherwise the phase is unchanged. Settlement is one-way, and the engine invariant is kept. |
| Engine.Game.FirstTickPaysLowThreshold | server.js:117-134 | Because the auto-cashout scan runs before the crash test, an active bet whose threshold is at most 1.01 is cashed out at 1.01 on the first flight tick, whatever the crash point. This includes the instant crash at 1.00, which then crashes the round on that same tick. Such a bet never loses. |
| Engine.Game.Cooldown | server.js:171-174 | The restart returns to `waiting` and immediately opens the next countdown with a fresh crash point, the override slot emptied and an empty bet list. The user records, the multiplier and the history are unchanged, the flight timer stays disarmed, and the books reopen over the current users. |
| Engine.Game.Auth | server.js:220-242 | An existing user is returned unchanged. An unknown user is created with balance 0.09 and zeroed counters. |
| Engine.Game.PlaceBet | server.js:244-283 | Rejected with nothing changed outside `waiting`/`countdown`, or for an unknown user or one whose balance is below the amount. Otherwise the balance drops by exactly the amount and one active bet is appended, leaving earlier bets unchanged. |
| Engine.Game.Cashout | server.js:285-308 | Rejected with nothing changed when not `flying`, or when the caller has no active bet. Otherwise it settles the caller's first active bet at the current multiplier and credits them. |
| Engine.Game.SetCrash | server.js:318-327 | With the right key, the override slot holds the given value. Otherwise the call is refused and nothing changes. Either way the engine invariant is kept. |
| Engine.Game.ForceCrashAsWritten | server.js:329-343 | As written: refused with nothing changed outside `flying`. In `flying` it pins the crash point to the multiplier and crashes with balances, games won and winnings unchanged, but the flight timer stays armed. |
| Engine.Game.ForceCrash | server.js:336-341 | Corrected force-crash: refused without the key or outside flying with nothing changed. While flying it pins the crash point to the multiplier, resolves the bets, records the round under its own id and disarms the flight timer. Balances, games won and winnings, the user set, the round id, the pending override, the multiplier and the countdown are unchanged, and the engine invariant holds afterwards. |
| Engine.Game.StaleTickAfterForceCrash | server.js:116-138 | After the as-written force-crash, the next flight tick crashes the same round again. This gives two round records with the same id and two scheduled restarts (finding 2). |

## Findings

| source | as written | input that shows it | evidently intended | confidence | as-written member | corrected member |
|---|---|---|---|---|---|---|
| server.js:71 | `Math.floor((99 / (1 - r*0.99)) * 100) / 100` is at least 99 for every draw, so the `Math.max(1.01, …)` clamp never applies. Every round that is not an instant crash reaches 99.00×. | first draw 0.5, second draw 0 gives a crash point of 99.00 | `99 / (1 - r*0.99)` already counts hundredths: `Math.floor(99 / (1 - r*0.99)) / 100`, in [0.99, 99), clamped to 1.01 | not executed; bug certain, intended formula inferred | CrashPoints.AsWrittenNeverBelow99 | CrashPoints.IntendedLowCrashes |
| server.js:336-338 | force-crash calls `crashGame` without `clearInterval(flyInterval)`. The next tick finds multiplier ≥ crash point and runs `crashGame` again for the same round. | force-crash while flying, then one flight tick | clear the flight interval before crashing, as the tick itself does at server.js:133 | not executed; high | Engine.Game.StaleTickAfterForceCrash | Engine.Game.ForceCrash |

The rest of the model uses the corrected forms: `CrashPoint` with the
intended transform, and `ForceCrash`, which keeps `Valid()`.

## Left out

- bot.js (the Telegram admin front end) is not part of this model.
- Socket.IO broadcasts and acknowledgements' formatting (`toFixed`), the per-connection state snapshot, the `connectedPlayers` counter and `disconnect`, and the Express, CORS and JSON setup: transport only.
- MongoDB: the user collection is an in-memory map, and the round records are a ghost sequence. Storage failures are not modelled. For example, a unique-index rejection of the second round record in finding 2 would stop that second `crashGame` before it schedules a restart.
- `/admin/stats`, `/api/history`, `/api/leaderboard`: read-only queries over storage.
- `Math.random`, `crypto.randomBytes` and `new Date()`: draws and the round id are parameters; start and end times are not modelled.
- Floating point: all arithmetic is exact, so the float drift of `multiplier += 0.01` and of balances is not modelled.
- `await` interleavings and timer jitter: each tick and each handler runs as one atomic step, and at-most-once settlement is proved under that reading.
- Connection identity: handlers take the authenticated user id and display name as parameters. A connection that never sent `auth` is not modelled.
- Non-numeric inputs (`NaN` from `parseFloat`, strings as amounts or thresholds) are not modelled; amounts, thresholds and overrides are reals.
- The `if (user)` guards of `processCashout` and `crashGame` always hold under the ledger invariant, because bets are placed only by existing users and users are never deleted. The model therefore has no branch for a missing user.
- The house-edge property (long-run payout below 100%) is not proved, and it does not hold for every bet. `FirstTickPaysLowThreshold` shows that an auto-cashout threshold at or below 1.01 is paid at 1.01 on the first tick even in the instant crash, so such a bet returns 101% of its stake. For other bets it is a statement about the distribution of the draws; only the 3% branch and the bounds of the transform are proved.
- A bet placed while the status is `waiting`: `PlaceBet` accepts it, as server.js:245 does, and a later `StartRound` empties the bet list with the stake still debited. The source never reaches this, because `gameLoop` leaves `waiting` in the same synchronous step, both at startup (server.js:383) and on restart (server.js:171-173). The model's constructor stops in `waiting` and leaves the first `StartRound` to the caller, so the model can take this path.
- Money conservation is stated per user, by the ledger invariant, rather than as a sum over all users.

=== FILE: crash_points.dfy ===
/**
 * Crash-point generation (server.js:59-72).
 *
 * `Math.random` is not modelled: the two draws it makes are parameters,
 * `first` (the house-edge draw) and `second` (the draw fed to the
 * inverse-distribution transform), each in [0, 1).
 */
module CrashPoints {
  import opened Options

  /** Probability of an instant crash at 1.00 (server.js:68). */
  const HouseEdge: real := 0.03

  /** Lower clamp of every non-instant random crash point (server.js:71). */
  const MinRandomCrash: real := 1.01

  predicate IsDraw(r: real) { 0.0 <= r < 1.0 }

  function Max(a: real, b: real): real { if a >= b then a else b }

  /** Denominator of the transform, `1 - r * 0.99`, which lies in (0.01, 1]. */
  function Spread(r: real): (d: real)
    requires IsDraw(r)
    ensures 0.01 < d <= 1.0
  {
    1.0 - r * 0.99
  }

  /**
   * The transform exactly as server.js:71 writes it:
   * `Math.floor((99 / (1 - r * 0.99)) * 100) / 100`.
   */
  function AsWrittenDraw(r: real): real
    requires IsDraw(r)
  {
    ((99.0 / Spread(r)) * 100.0).Floor as real / 100.0
  }

  /**
   * The generator as server.js:59-72 writes it: an override verbatim, an
   * instant crash below the house edge, and otherwise the as-written
   * transform, clamped to at least 1.01.
   */
  function AsWrittenCrashPoint(pending: Option<real>, first: real, second: real): (c: real)
    requires IsDraw(second)
    ensures pending.Some? ==> c == pending.value
    ensures pending.None? && first < HouseEdge ==> c == 1.0
    ensures pending.None? && HouseEdge <= first ==> MinRandomCrash <= c && AsWrittenDraw(second) <= c
  {
    if pending.Some? then pending.value
    else if first < HouseEdge then 1.0
    else Max(MinRandomCrash, AsWrittenDraw(second))
  }

  /**
   * The transform with its evident intent: `99 / (1 - r * 0.99)` already
   * counts hundredths, so it is floored and divided by 100 once.
   */
  function IntendedDraw(r: real): real
    requires IsDraw(r)
  {
    (99.0 / Spread(r)).Floor as real / 100.0
  }

  /** `99 / d` for the transform's denominator lies in [99, 9900). */
  lemma QuotientBounds(r: real)
    requires IsDraw(r)
    ensures 99.0 <= 99.0 / Spread(r) < 9900.0
  {
    var d := Spread(r);
    var q := 99.0 / d;
    assert q * d == 99.0;
    assert q - 99.0 == (99.0 - 99.0 * d) / d;
    assert 9900.0 - q == (9900.0 * d - 99.0) / d;
  }

  /**
   * Finding: as written, every non-instant draw gives at least 99.00, so the
   * `Math.max(1.01, ...)` clamp never takes effect and no round crashes
   * anywhere between 1.00 and 99.00.
   */
  lemma AsWrittenNeverBelow99(first: real, second: real)
    requires IsDraw(second) && HouseEdge <= first
    ensures AsWrittenCrashPoint(None, first, second) >= 99.0
    ensures AsWrittenDraw(second) > MinRandomCrash
  {
    QuotientBounds(second);
    var q := 99.0 / Spread(second);
    assert (q * 100.0).Floor >= 9900;
  }

  /** The as-written generator at the smallest draw: a 99.00 crash. */
  lemma AsWrittenSmallestDraw()
    ensures AsWrittenCrashPoint(None, 0.5, 0.0) == 99.0
  {
    assert Spread(0.0) == 1.0;
    assert 99.0 / Spread(0.0) * 100.0 == 9900.0;
  }

  /** The intended transform ranges over [0.99, 99). */
  lemma IntendedDrawBounds(r: real)
    requires IsDraw(r)
    ensures 0.99 <= IntendedDraw(r) < 99.0
  {
    QuotientBounds(r);
  }

  /**
   * The crash point of the next round: a pending override verbatim, else an
   * instant crash at 1.00 with probability `HouseEdge`, else the intended
   * transform clamped to at least 1.01 (server.js:59-72, with the transform
   * corrected as described in `IntendedDraw`).
   */
  function CrashPoint(pending: Option<real>, first: real, second: real): (c: real)
    requires IsDraw(second)
    ensures pending.Some? ==> c == pending.value
    ensures pending.None? && first < HouseEdge ==> c == 1.0
    ensures pending.None? && HouseEdge <= first ==> MinRandomCrash <= c < 99.0
    ensures pending.None? ==> 1.0 <= c
  {
    IntendedDrawBounds(second);
    if pending.Some? then pending.value
    else if first < HouseEdge then 1.0
    else Max(MinRandomCrash, IntendedDraw(second))
  }

  /**
   * With the intended transform the clamp does take effect: the smallest
   * draw crashes at exactly 1.01, and every second draw up to one half
   * crashes below 2.00.
   */
  lemma IntendedLowCrashes(first: real, second: real)
    requires HouseEdge <= first && IsDraw(second) && second <= 0.5
    ensures CrashPoint(None, first, second) < 2.0
    ensures CrashPoint(None, first, 0.0) == MinRandomCrash
  {
    var d := Spread(second);
    var q := 99.0 / d;
    assert d >= 0.505;
    assert q * d == 99.0;
    assert 197.0 - q == (197.0 * d - 99.0) / d;
    assert q.Floor <= 197;
    assert Spread(0.0) == 1.0;
    assert 99.0 / Spread(0.0) == 99.0;
  }
}

=== FILE: engine.dfy ===
/**
 * The round engine of server.js: the `gameState` object (server.js:45-54)
 * and the `adminNextCrash` slot (server.js:56), with the game loop, the
 * flight tick, crash resolution, cashout settlement, the socket handlers
 * `auth`, `place_bet` and `cashout`, and the admin `set-crash` and
 * `force-crash` handlers.
 *
 * Timers are explicit state. `countdownTimer` and `flightTimer` stand for the
 * two `setInterval` handles and `pendingRestarts` for the `setTimeout`
 * callbacks scheduled by the crash; each tick method may only run while its
 * timer is armed. Every tick and every handler is one atomic step.
 */
module Engine {
  import opened Options
  import opened CrashPoints
  import opened Ledger

  datatype Status = Waiting | Countdown | Flying | Crashed

  /** The round record saved at the crash (server.js:157-163). */
  datatype RoundRecord = RoundRecord(roundId: string, crashPoint: real, bets: seq<Bet>)

  datatype BetError = BetsClosed | InsufficientFunds
  datatype BetReply = BetPlaced(newBalance: real) | BetRejected(error: BetError)

  datatype CashoutError = NotFlying | NoActiveBet
  datatype CashoutReply =
    | CashoutDone(win: real, newBalance: real, multiplier: real)
    | CashoutRejected(error: CashoutError)

  datatype AdminReply = Done | NotActive | Forbidden

  /** Length of the betting window, in one-second ticks (server.js:79). */
  const CountdownSeconds: int := 10

  /** Growth of the multiplier per flight tick (server.js:117). */
  const Step: real := 0.01

  class Game {
    var status: Status
    var countdown: int
    var multiplier: real
    /** `null` in server.js until the first round starts; never read before. */
    var crashPoint: real
    var roundId: string
    var bets: seq<Bet>
    var users: map<UserId, User>
    /** The admin override, `adminNextCrash`. */
    var nextCrash: Option<real>

    var countdownTimer: bool
    var flightTimer: bool
    var pendingRestarts: nat

    /** Each user's record when the round began, or when they joined since. */
    ghost var opening: map<UserId, User>
    /** The round records handed to storage, oldest first. */
    ghost var history: seq<RoundRecord>

    ghost predicate Books()
      reads this
    {
      Balanced(opening, bets, users)
    }

    /**
     * The engine invariant: the ledger balances, exactly the timer of the
     * current phase is armed, the countdown stays within its window, and
     * while flying the multiplier has not yet reached the crash point
     * (except at the 1.00 start of a round whose crash point is 1.00 or less).
     */
    ghost predicate Valid()
      reads this
    {
      && Books()
      && 1.0 <= multiplier
      && (countdownTimer <==> status == Countdown)
      && (flightTimer <==> status == Flying)
      && pendingRestarts == (if status == Crashed then 1 else 0)
      && (status == Countdown ==> 0 < countdown <= CountdownSeconds)
      && (status == Flying ==> multiplier == 1.0 || multiplier < crashPoint)
    }

    /** The initial `gameState` over the users already in storage. */
    constructor (stored: map<UserId, User>)
      ensures Valid()
      ensures status == Waiting && countdown == CountdownSeconds && multiplier == 1.0
      ensures bets == [] && users == stored && nextCrash == None && history == []
      ensures !countdownTimer && !flightTimer && pendingRestarts == 0
    {
      status := Waiting;
      countdown := CountdownSeconds;
      multiplier := 1.0;
      crashPoint := 0.0;
      roundId := "";
      bets := [];
      users := stored;
      nextCrash := None;
      countdownTimer := false;
      flightTimer := false;
      pendingRestarts := 0;
      opening := stored;
      history := [];
    }

    /** `generateCrashPoint` (server.js:59-72): a pending override is used once. */
    method GenerateCrashPoint(first: real, second: real) returns (c: real)
      requires IsDraw(second)
      modifies this`nextCrash
      ensures c == CrashPoint(old(nextCrash), first, second)
      ensures nextCrash == None
    {
      if nextCrash.Some? {
        c := nextCrash.value;
        nextCrash := None;
        return;
      }
      if first < HouseEdge {
        return 1.0;
      }
      c := Max(MinRandomCrash, IntendedDraw(second));
    }

    /**
     * `gameLoop` (server.js:75-103): from `waiting` only, open the betting
     * window with a fresh round id, crash point and bet list.
     */
    method StartRound(id: string, first: real, second: real)
      requires Valid() && IsDraw(second)
      modifies this
      ensures old(status) != Waiting ==> unchanged(this)
      ensures old(status) == Waiting ==>
        && status == Countdown && countdown == CountdownSeconds && countdownTimer
        && roundId == id && bets == []
        && crashPoint == CrashPoint(old(nextCrash), first, second) && nextCrash == None
        && users == old(users) && opening == users
        && multiplier == old(multiplier) && !flightTimer
        && pendingRestarts == old(pendingRestarts) && history == old(history)
      ensures Valid()
    {
      if status == Waiting {
        RoundStartBalanced(users);
        status := Countdown;
        countdown := CountdownSeconds;
        roundId := id;
        crashPoint := GenerateCrashPoint(first, second);
        bets := [];
        opening := users;
        countdownTimer := true;
      }
    }

    /** `startFlyingPhase` (server.js:105-108): the multiplier restarts at 1.00. */
    method StartFlyingPhase()
      modifies this`status, this`multiplier, this`flightTimer
      ensures status == Flying && multiplier == 1.0 && flightTimer
    {
      status := Flying;
      multiplier := 1.0;
      flightTimer := true;
    }

    /** One second of the countdown (server.js:91-99). */
    method CountdownTick()
      requires Valid() && countdownTimer
      modifies this
      ensures countdown == old(countdown) - 1
      ensures countdown <= 0 ==>
        status == Flying && multiplier == 1.0 && !countdownTimer && flightTimer
      ensures countdown > 0 ==>
        status == Countdown && multiplier == old(multiplier) && countdownTimer && !flightTimer
      ensures crashPoint == old(crashPoint) && roundId == old(roundId) && nextCrash == old(nextCrash)
      ensures bets == old(bets) && users == old(users) && opening == old(opening)
      ensures pendingRestarts == old(pendingRestarts) && history == old(history)
      ensures Valid()
    {
      countdown := countdown - 1;
      if countdown <= 0 {
        countdownTimer := false;
        StartFlyingPhase();
      }
    }

    /**
     * `processCashout` (server.js:177-199): settle bet `i` at the current
     * multiplier and credit its owner. The code does not re-check the bet's
     * status; both callers only pass active bets.
     */
    method ProcessCashout(i: nat) returns (win: real)
      requires Books() && i < |bets| && bets[i].status == Active
      modifies this`bets, this`users
      ensures win == Payout(old(bets)[i], multiplier)
      ensures bets == old(bets)[i := Settled(old(bets)[i], multiplier)]
      ensures users == old(users)[old(bets)[i].userId :=
                Credited(old(users)[old(bets)[i].userId], old(bets)[i], multiplier)]
      ensures Books()
    {
      SettlePreserves(opening, bets, users, i, multiplier);
      var b := bets[i];
      win := Payout(b, multiplier);
      bets := bets[i := Settled(b, multiplier)];
      users := users[b.userId := Credited(users[b.userId], b, multiplier)];
    }

    /**
     * The loss loop of `crashGame` (server.js:145-154): every bet still
     * active becomes lost and counts as a game played for its owner.
     */
    method ForfeitActiveBets()
      requires Books()
      modifies this`bets, this`users
      ensures bets == ResolveAll(old(bets))
      ensures Books() && users.Keys == old(users).Keys
    {
      ghost var before := bets;
      var i := 0;
      while i < |bets|
        invariant 0 <= i <= |bets| == |before|
        invariant forall j :: 0 <= j < i ==> bets[j] == Resolved(before[j])
        invariant forall j :: i <= j < |bets| ==> bets[j] == before[j]
        invariant Books() && users.Keys == old(users).Keys
      {
        if bets[i].status == Active {
          var b := bets[i];
          var bets', users' := bets[i := Forfeited(b)], users[b.userId := Counted(users[b.userId])];
          assert Balanced(opening, bets', users') by {
            ForfeitPreserves(opening, bets, users, i);
          }
          bets, users := bets', users';
        }
        i := i + 1;
      }
      assert bets == ResolveAll(before);
    }

    /**
     * `crashGame` (server.js:141-175): the round is lost for every bet still
     * active, which moves no money; the round is recorded and one restart is
     * scheduled.
     */
    method CrashGame()
      requires Books()
      modifies this
      ensures status == Crashed
      ensures bets == ResolveAll(old(bets))
      ensures Books() && opening == old(opening) && users.Keys == old(users).Keys
      ensures forall u :: u in users ==>
        && users[u].balance == old(users)[u].balance
        && users[u].gamesWon == old(users)[u].gamesWon
        && users[u].totalWinnings == old(users)[u].totalWinnings
      ensures history == old(history) + [RoundRecord(roundId, crashPoint, bets)]
      ensures pendingRestarts == old(pendingRestarts) + 1
      ensures countdown == old(countdown) && multiplier == old(multiplier)
      ensures crashPoint == old(crashPoint) && roundId == old(roundId) && nextCrash == old(nextCrash)
      ensures countdownTimer == old(countdownTimer) && flightTimer == old(flightTimer)
    {
      status := Crashed;
      ghost var before := bets;
      ForfeitActiveBets();
      forall u | u in users
        ensures users[u].balance == old(users)[u].balance
        ensures users[u].gamesWon == old(users)[u].gamesWon
        ensures users[u].totalWinnings == old(users)[u].totalWinnings
      {
        ResolveKeepsMoney(before, u);
      }
      history := history + [RoundRecord(roundId, crashPoint, bets)];
      pendingRestarts := pendingRestarts + 1;
    }

    /**
     * The auto-cashout loop of the flight tick (server.js:125-129): in list
     * order, settle every active bet whose threshold the multiplier has
     * reached.
     */
    method AutoCashoutScan()
      requires Books()
      modifies this`bets, this`users
      ensures bets == AutoCashouts(old(bets), multiplier)
      ensures Books() && users.Keys == old(users).Keys
    {
      ghost var before := bets;
      var i := 0;
      while i < |bets|
        invariant 0 <= i <= |bets| == |before|
        invariant forall j :: 0 <= j < i ==> bets[j] == AutoCashout(before[j], multiplier)
        invariant forall j :: i <= j < |bets| ==> bets[j] == before[j]
        invariant Books() && users.Keys == old(users).Keys
      {
        if Due(bets[i], multiplier) {
          var _ := ProcessCashout(i);
        }
        i := i + 1;
      }
      assert bets == AutoCashouts(before, multiplier);
    }

    /**
     * One flight tick (server.js:116-138): raise the multiplier by one
     * hundredth, settle every due auto-cashout in list order, then crash if
     * the multiplier has reached the crash point. Auto-cashouts are settled
     * before the crash test, so a threshold equal to the new multiplier is
     * paid even on the tick that crashes.
     */
    method FlyTick()
      requires Books() && flightTimer
      modifies this
      ensures multiplier == old(multiplier) + Step
      ensures multiplier >= old(crashPoint) ==>
        && bets == ResolveAll(AutoCashouts(old(bets), multiplier))
        && status == Crashed && !flightTimer
        && pendingRestarts == old(pendingRestarts) + 1
        && history == old(history) + [RoundRecord(roundId, crashPoint, bets)]
      ensures multiplier < old(crashPoint) ==>
        && bets == AutoCashouts(old(bets), multiplier)
        && status == old(status) && flightTimer
        && pendingRestarts == old(pendingRestarts) && history == old(history)
      ensures Books() && opening == old(opening) && users.Keys == old(users).Keys
      ensures OneWay(old(bets), bets)
      ensures countdown == old(countdown) && crashPoint == old(crashPoint) && roundId == old(roundId)
      ensures nextCrash == old(nextCrash) && countdownTimer == old(countdownTimer)
      ensures old(Valid()) ==> Valid()
    {
      multiplier := multiplier + Step;
      AutoCashoutScan();
      SettlementIsOneWay(old(bets), multiplier);
      if multiplier >= crashPoint {
        flightTimer := false;
        ghost var scanned := bets;
        CrashGame();
        SettlementIsOneWay(scanned, multiplier);
        OneWayTransitive(old(bets), scanned, bets);
      }
    }

    /**
     * Because the scan runs before the crash test, an active bet whose
     * threshold is at most 1.01 is paid at 1.01 on the first tick of every
     * flight, whatever the crash point, including the instant crash at 1.00.
     * Such a bet never loses.
     */
    method FirstTickPaysLowThreshold(i: nat)
      requires Valid() && status == Flying && multiplier == 1.0
      requires i < |bets| && bets[i].status == Active
      requires bets[i].autoCashout.Some? && bets[i].autoCashout.value <= 1.01
      modifies this
      ensures multiplier == 1.01 && i < |bets|
      ensures bets[i].status == CashedOut(1.01, Payout(old(bets)[i], 1.01))
      ensures old(crashPoint) <= 1.01 ==> status == Crashed
      ensures Valid()
    {
      ghost var b := bets[i];
      FlyTick();
      assert AutoCashout(b, 1.01) == Settled(b, 1.01);
    }

    /**
     * The cool-down callback (server.js:171-174): back to `waiting` and
     * straight into the next round.
     */
    method Cooldown(id: string, first: real, second: real)
      requires Valid() && pendingRestarts > 0 && IsDraw(second)
      modifies this
      ensures status == Countdown && countdown == CountdownSeconds && countdownTimer
      ensures roundId == id && bets == [] && users == old(users)
      ensures crashPoint == CrashPoint(old(nextCrash), first, second) && nextCrash == None
      ensures pendingRestarts == 0 && history == old(history)
      ensures multiplier == old(multiplier) && !flightTimer && opening == users
      ensures Valid()
    {
      pendingRestarts := pendingRestarts - 1;
      status := Waiting;
      StartRound(id, first, second);
    }

    /**
     * The `auth` handler (server.js:220-242): look the user up, creating a
     * record with the starting balance on first contact.
     */
    method Auth(userId: UserId, username: string) returns (user: User)
      requires Valid()
      modifies this`users, this`opening
      ensures userId in old(users) ==>
        user == old(users)[userId] && users == old(users) && opening == old(opening)
      ensures userId !in old(users) ==>
        && user == NewUser(username)
        && users == old(users)[userId := user] && opening == old(opening)[userId := user]
      ensures Valid()
    {
      if userId in users {
        user := users[userId];
      } else {
        user := NewUser(username);
        JoinPreserves(opening, bets, users, userId, user);
        users := users[userId := user];
        opening := opening[userId := user];
      }
    }

    /**
     * The `place_bet` handler (server.js:244-283): only before the flight,
     * only for a known user whose balance covers the amount; the stake is
     * debited at once and an active bet is appended. The amount itself is
     * not checked.
     */
    method PlaceBet(userId: UserId, username: string, amount: real, autoCashout: Option<real>)
      returns (reply: BetReply)
      requires Valid()
      modifies this`bets, this`users
      ensures status != Waiting && status != Countdown ==>
        reply == BetRejected(BetsClosed) && bets == old(bets) && users == old(users)
      ensures (status == Waiting || status == Countdown)
              && (userId !in old(users) || old(users)[userId].balance < amount) ==>
        reply == BetRejected(InsufficientFunds) && bets == old(bets) && users == old(users)
      ensures (status == Waiting || status == Countdown)
              && userId in old(users) && amount <= old(users)[userId].balance ==>
        && users == old(users)[userId := Debited(old(users)[userId], amount)]
        && bets == old(bets) + [Bet(userId, username, amount, StoredThreshold(autoCashout), Active)]
        && reply == BetPlaced(users[userId].balance)
      ensures OneWay(old(bets), bets)
      ensures Valid()
    {
      if status != Countdown && status != Waiting {
        return BetRejected(BetsClosed);
      }
      if userId !in users || users[userId].balance < amount {
        return BetRejected(InsufficientFunds);
      }
      var b := Bet(userId, username, amount, StoredThreshold(autoCashout), Active);
      PlacePreserves(opening, bets, users, b);
      users := users[userId := Debited(users[userId], amount)];
      bets := bets + [b];
      reply := BetPlaced(users[userId].balance);
    }

    /**
     * The `cashout` handler (server.js:285-308): only while flying, and only
     * for the caller's first active bet, which is settled at the current
     * multiplier.
     */
    method Cashout(userId: UserId) returns (reply: CashoutReply)
      requires Valid()
      modifies this`bets, this`users
      ensures status != Flying ==>
        reply == CashoutRejected(NotFlying) && bets == old(bets) && users == old(users)
      ensures status == Flying && FirstActiveBet(old(bets), userId).None? ==>
        reply == CashoutRejected(NoActiveBet) && bets == old(bets) && users == old(users)
      ensures status == Flying && FirstActiveBet(old(bets), userId).Some? ==>
        var i := FirstActiveBet(old(bets), userId).value;
        && bets == old(bets)[i := Settled(old(bets)[i], multiplier)]
        && users == old(users)[userId := Credited(old(users)[userId], old(bets)[i], multiplier)]
        && reply == CashoutDone(Payout(old(bets)[i], multiplier), users[userId].balance, multiplier)
      ensures OneWay(old(bets), bets)
      ensures Valid()
    {
      if status != Flying {
        return CashoutRejected(NotFlying);
      }
      var found := FirstActiveBet(bets, userId);
      if found.None? {
        return CashoutRejected(NoActiveBet);
      }
      var win := ProcessCashout(found.value);
      reply := CashoutDone(win, users[userId].balance, multiplier);
    }

    /**
     * `POST /admin/set-crash` (server.js:318-327): store the override for the
     * next round. The shared-secret check is the flag `authorized`.
     */
    method SetCrash(authorized: bool, value: real) returns (reply: AdminReply)
      requires Valid()
      modifies this`nextCrash
      ensures Valid()
      ensures authorized ==> reply == Done && nextCrash == Some(value)
      ensures !authorized ==> reply == Forbidden && nextCrash == old(nextCrash)
    {
      if !authorized {
        return Forbidden;
      }
      nextCrash := Some(value);
      reply := Done;
    }

    /**
     * `POST /admin/force-crash` as server.js:329-343 writes it: while flying,
     * pin the crash point to the current multiplier and crash, but leave the
     * flight interval running.
     */
    method ForceCrashAsWritten(authorized: bool) returns (reply: AdminReply)
      requires Valid()
      modifies this
      ensures !authorized ==> reply == Forbidden && unchanged(this)
      ensures authorized && old(status) != Flying ==> reply == NotActive && unchanged(this)
      ensures authorized && old(status) == Flying ==>
        && reply == Done && status == Crashed
        && crashPoint == old(multiplier)
        && bets == ResolveAll(old(bets))
        && history == old(history) + [RoundRecord(roundId, crashPoint, bets)]
        && pendingRestarts == old(pendingRestarts) + 1
        && flightTimer
      ensures Books() && opening == old(opening) && users.Keys == old(users).Keys
      ensures forall u :: u in users ==>
        && users[u].balance == old(users)[u].balance
        && users[u].gamesWon == old(users)[u].gamesWon
        && users[u].totalWinnings == old(users)[u].totalWinnings
      ensures roundId == old(roundId) && nextCrash == old(nextCrash)
      ensures multiplier == old(multiplier) && countdown == old(countdown)
      ensures countdownTimer == old(countdownTimer)
    {
      if !authorized {
        return Forbidden;
      }
      if status == Flying {
        crashPoint := multiplier;
        CrashGame();
        reply := Done;
      } else {
        reply := NotActive;
      }
    }

    /**
     * Force-crash as evidently intended: the same, and the flight interval is
     * cleared, as the tick's own crash does at server.js:133.
     */
    method ForceCrash(authorized: bool) returns (reply: AdminReply)
      requires Valid()
      modifies this
      ensures !authorized ==> reply == Forbidden && unchanged(this)
      ensures authorized && old(status) != Flying ==> reply == NotActive && unchanged(this)
      ensures authorized && old(status) == Flying ==>
        && reply == Done && status == Crashed
        && crashPoint == old(multiplier)
        && bets == ResolveAll(old(bets))
        && history == old(history) + [RoundRecord(roundId, crashPoint, bets)]
        && !flightTimer
      ensures Books() && opening == old(opening) && users.Keys == old(users).Keys
      ensures forall u :: u in users ==>
        && users[u].balance == old(users)[u].balance
        && users[u].gamesWon == old(users)[u].gamesWon
        && users[u].totalWinnings == old(users)[u].totalWinnings
      ensures roundId == old(roundId) && nextCrash == old(nextCrash)
      ensures multiplier == old(multiplier) && countdown == old(countdown)
      ensures countdownTimer == old(countdownTimer)
      ensures Valid()
    {
      reply := ForceCrashAsWritten(authorized);
      if reply == Done {
        flightTimer := false;
      }
    }

    /**
     * What the as-written force-crash leads to: 50 ms later the still-armed
     * flight interval ticks, finds the multiplier above the pinned crash
     * point and runs `crashGame` a second time for the same round.
     */
    method StaleTickAfterForceCrash()
      requires Valid() && status == Flying
      modifies this
      ensures status == Crashed && pendingRestarts == 2
      ensures |history| == |old(history)| + 2
      ensures history[|old(history)|].roundId == history[|old(history)| + 1].roundId == old(roundId)
    {
      var reply := ForceCrashAsWritten(true);
      FlyTick();
    }
  }
}

=== FILE: ledger.dfy ===
/**
 * Bets, user records and the accounting that ties them together
 * (server.js:19-28, 177-199, 145-154, 244-283).
 *
 * The user store is a map from user id to record. The central invariant,
 * `Balanced`, says that every user's record equals the record they had when
 * the round began, adjusted by the effect of that user's bets in the round:
 * the stake debited at placement, the win credited at cashout, and the
 * counters bumped when a bet is settled. It follows that balances move only
 * at the debit and credit points and that each bet is accounted for once.
 */
module Ledger {
  import opened Options

  type UserId = string

  /** A bet is `active` until it is settled, once, as cashed out or lost. */
  datatype BetStatus = Active | CashedOut(multiplier: real, win: real) | Lost

  datatype Bet = Bet(
    userId: UserId,
    username: string,
    amount: real,
    autoCashout: Option<real>,
    status: BetStatus)

  datatype User = User(
    username: string,
    balance: real,
    gamesPlayed: int,
    gamesWon: int,
    totalWinnings: real)

  /** Balance of a freshly created user (server.js:22). */
  const StartingBalance: real := 0.09

  /** A user record as first created, with the schema defaults (server.js:22-25). */
  function NewUser(username: string): User
  {
    User(username, StartingBalance, 0, 0, 0.0)
  }

  /**
   * The stored auto-cashout threshold: `autoCashout || null` (server.js:266)
   * drops a zero threshold, so a bet with threshold 0 is never auto-settled.
   */
  function StoredThreshold(autoCashout: Option<real>): (t: Option<real>)
    ensures t.Some? <==> autoCashout.Some? && autoCashout.value != 0.0
    ensures t.Some? ==> t.value == autoCashout.value
  {
    if autoCashout == Some(0.0) then None else autoCashout
  }

  /** Debit of a stake at placement (server.js:259). */
  function Debited(user: User, amount: real): User
  {
    user.(balance := user.balance - amount)
  }

  /** The win of a bet cashed out at multiplier `m` (server.js:178). */
  function Payout(b: Bet, m: real): real
  {
    b.amount * m
  }

  /** A bet settled at multiplier `m` (server.js:179-181). */
  function Settled(b: Bet, m: real): Bet
  {
    b.(status := CashedOut(m, Payout(b, m)))
  }

  /** The credit for a bet settled at `m` (server.js:185-188). */
  function Credited(user: User, b: Bet, m: real): User
  {
    user.(balance := user.balance + Payout(b, m),
          gamesPlayed := user.gamesPlayed + 1,
          gamesWon := user.gamesWon + 1,
          totalWinnings := user.totalWinnings + (Payout(b, m) - b.amount))
  }

  /** A bet still active at the crash (server.js:147). */
  function Forfeited(b: Bet): Bet
  {
    b.(status := Lost)
  }

  /** The loser's only change: one more game played (server.js:150). */
  function Counted(user: User): User
  {
    user.(gamesPlayed := user.gamesPlayed + 1)
  }

  /** The auto-cashout test of server.js:126. */
  predicate Due(b: Bet, m: real)
  {
    b.status == Active && b.autoCashout.Some? && m >= b.autoCashout.value
  }

  /** One bet after the auto-cashout scan at multiplier `m`. */
  function AutoCashout(b: Bet, m: real): Bet
  {
    if Due(b, m) then Settled(b, m) else b
  }

  /** One bet after crash resolution. */
  function Resolved(b: Bet): Bet
  {
    if b.status == Active then Forfeited(b) else b
  }

  function AutoCashouts(bets: seq<Bet>, m: real): (r: seq<Bet>)
  {
    seq(|bets|, i requires 0 <= i < |bets| => AutoCashout(bets[i], m))
  }

  function ResolveAll(bets: seq<Bet>): (r: seq<Bet>)
  {
    seq(|bets|, i requires 0 <= i < |bets| => Resolved(bets[i]))
  }

  predicate Holds(b: Bet, u: UserId)
  {
    b.userId == u && b.status == Active
  }

  /**
   * Index of the caller's first active bet, as the `find` of server.js:292.
   */
  function FirstActiveBet(bets: seq<Bet>, u: UserId): (r: Option<nat>)
    ensures r.Some? ==> r.value < |bets| && Holds(bets[r.value], u)
    ensures r.Some? ==> forall j :: 0 <= j < r.value ==> !Holds(bets[j], u)
    ensures r.None? ==> forall j :: 0 <= j < |bets| ==> !Holds(bets[j], u)
  {
    if bets == [] then None
    else if Holds(bets[0], u) then Some(0)
    else match FirstActiveBet(bets[1..], u)
      case None => None
      case Some(k) => Some(k + 1)
  }

  /**
   * `later` is what `earlier` can become within a round: bets are only
   * appended, an entry keeps its owner, stake and threshold, and a settled
   * entry never changes again.
   */
  ghost predicate OneWay(earlier: seq<Bet>, later: seq<Bet>)
  {
    |earlier| <= |later| &&
    forall i :: 0 <= i < |earlier| ==>
      && later[i].userId == earlier[i].userId
      && later[i].username == earlier[i].username
      && later[i].amount == earlier[i].amount
      && later[i].autoCashout == earlier[i].autoCashout
      && (earlier[i].status != Active ==> later[i] == earlier[i])
  }

  lemma OneWayTransitive(a: seq<Bet>, b: seq<Bet>, c: seq<Bet>)
    requires OneWay(a, b) && OneWay(b, c)
    ensures OneWay(a, c)
  {
  }

  /**
   * The auto-cashout scan and crash resolution are one-way, and after
   * either no due bet remains: a bet settled by the scan cannot be settled
   * again by the next scan, by a manual cashout or by the crash.
   */
  lemma SettlementIsOneWay(bets: seq<Bet>, m: real)
    ensures OneWay(bets, AutoCashouts(bets, m)) && OneWay(bets, ResolveAll(bets))
    ensures forall i :: 0 <= i < |bets| ==> !Due(AutoCashouts(bets, m)[i], m)
    ensures forall i :: 0 <= i < |bets| ==> ResolveAll(bets)[i].status != Active
    ensures AutoCashouts(AutoCashouts(bets, m), m) == AutoCashouts(bets, m)
  {
  }

  // ---------------------------------------------------------------------
  // Accounting

  /** What bets contribute to one user's record. */
  datatype Effect = Effect(balance: real, played: int, won: int, winnings: real)

  const NoEffect := Effect(0.0, 0, 0, 0.0)

  function Plus(a: Effect, b: Effect): Effect
  {
    Effect(a.balance + b.balance, a.played + b.played, a.won + b.won, a.winnings + b.winnings)
  }

  function Minus(a: Effect, b: Effect): Effect
  {
    Effect(a.balance - b.balance, a.played - b.played, a.won - b.won, a.winnings - b.winnings)
  }

  /**
   * The effect of one bet on user `u` so far: an active bet has cost its
   * stake; a cashed-out bet has cost its stake and paid its win, and counts
   * as a game played and won; a lost bet has cost its stake and counts as a
   * game played.
   */
  function BetEffect(b: Bet, u: UserId): Effect
  {
    if b.userId != u then NoEffect
    else match b.status
      case Active => Effect(-b.amount, 0, 0, 0.0)
      case CashedOut(_, win) => Effect(win - b.amount, 1, 1, win - b.amount)
      case Lost => Effect(-b.amount, 1, 0, 0.0)
  }

  function NetEffect(bets: seq<Bet>, u: UserId): Effect
  {
    if bets == [] then NoEffect
    else Plus(NetEffect(bets[..|bets| - 1], u), BetEffect(bets[|bets| - 1], u))
  }

  function Applied(user: User, e: Effect): User
  {
    user.(balance := user.balance + e.balance,
          gamesPlayed := user.gamesPlayed + e.played,
          gamesWon := user.gamesWon + e.won,
          totalWinnings := user.totalWinnings + e.winnings)
  }

  /**
   * The ledger invariant: `opening` holds each user's record at the start of
   * the round (or at creation, for users who joined since), every bet
   * belongs to a known user, and each record equals its opening record
   * adjusted by the net effect of that user's bets.
   */
  ghost predicate Balanced(opening: map<UserId, User>, bets: seq<Bet>, users: map<UserId, User>)
  {
    && opening.Keys == users.Keys
    && (forall i :: 0 <= i < |bets| ==> bets[i].userId in users)
    && (forall u {:trigger users[u]} :: u in users ==> users[u] == Applied(opening[u], NetEffect(bets, u)))
  }

  lemma {:induction false} NetEffectAppend(bets: seq<Bet>, b: Bet, u: UserId)
    ensures NetEffect(bets + [b], u) == Plus(NetEffect(bets, u), BetEffect(b, u))
  {
    assert (bets + [b])[..|bets|] == bets;
  }

  lemma {:induction false} NetEffectUpdate(bets: seq<Bet>, i: nat, b: Bet, u: UserId)
    requires i < |bets|
    ensures NetEffect(bets[i := b], u)
         == Plus(Minus(NetEffect(bets, u), BetEffect(bets[i], u)), BetEffect(b, u))
  {
    var n := |bets|;
    var init := bets[..n - 1];
    if i == n - 1 {
      assert bets[i := b][..n - 1] == init;
    } else {
      assert bets[i := b][..n - 1] == init[i := b];
      assert bets[i := b][n - 1] == bets[n - 1];
      assert NetEffect(init[i := b], u)
          == Plus(Minus(NetEffect(init, u), BetEffect(bets[i], u)), BetEffect(b, u)) by {
        NetEffectUpdate(init, i, b, u);
      }
    }
  }

  /** Nobody's bets: no effect, so a new user's opening record is their record. */
  lemma {:induction false} NetEffectAbsent(bets: seq<Bet>, u: UserId)
    requires forall i :: 0 <= i < |bets| ==> bets[i].userId != u
    ensures NetEffect(bets, u) == NoEffect
  {
    if bets != [] {
      var init := bets[..|bets| - 1];
      assert NetEffect(init, u) == NoEffect by {
        NetEffectAbsent(init, u);
      }
      assert BetEffect(bets[|bets| - 1], u) == NoEffect;
    }
  }

  /**
   * Crash resolution moves no money: every user's balance, games won and
   * total winnings are as before; only games played grows.
   */
  lemma {:induction false} ResolveKeepsMoney(bets: seq<Bet>, u: UserId)
    ensures NetEffect(ResolveAll(bets), u).balance == NetEffect(bets, u).balance
    ensures NetEffect(ResolveAll(bets), u).won == NetEffect(bets, u).won
    ensures NetEffect(ResolveAll(bets), u).winnings == NetEffect(bets, u).winnings
    ensures NetEffect(ResolveAll(bets), u).played >= NetEffect(bets, u).played
  {
    if bets != [] {
      var n := |bets|;
      assert ResolveAll(bets)[..n - 1] == ResolveAll(bets[..n - 1]);
      assert ResolveAll(bets)[n - 1] == Resolved(bets[n - 1]);
      var e := NetEffect(ResolveAll(bets[..n - 1]), u);
      assert e.balance == NetEffect(bets[..n - 1], u).balance
          && e.won == NetEffect(bets[..n - 1], u).won
          && e.winnings == NetEffect(bets[..n - 1], u).winnings
          && e.played >= NetEffect(bets[..n - 1], u).played by {
        ResolveKeepsMoney(bets[..n - 1], u);
      }
    }
  }

  /** A round opens balanced: no bets yet, every record is its own opening. */
  lemma RoundStartBalanced(users: map<UserId, User>)
    ensures Balanced(users, [], users)
  {
  }

  /** Placing a bet (server.js:259-270) keeps the ledger balanced. */
  lemma PlacePreserves(opening: map<UserId, User>, bets: seq<Bet>, users: map<UserId, User>, b: Bet)
    requires Balanced(opening, bets, users)
    requires b.userId in users && b.status == Active
    ensures Balanced(opening, bets + [b], users[b.userId := Debited(users[b.userId], b.amount)])
  {
    var bets', users' := bets + [b], users[b.userId := Debited(users[b.userId], b.amount)];
    forall i | 0 <= i < |bets'| ensures bets'[i].userId in users' {
      if i < |bets| { assert bets'[i] == bets[i]; }
    }
    forall u | u in users' ensures users'[u] == Applied(opening[u], NetEffect(bets', u)) {
      assert NetEffect(bets', u) == Plus(NetEffect(bets, u), BetEffect(b, u)) by {
        NetEffectAppend(bets, b, u);
      }
    }
  }

  /** Settling an active bet (server.js:177-190) keeps the ledger balanced. */
  lemma SettlePreserves(opening: map<UserId, User>, bets: seq<Bet>, users: map<UserId, User>, i: nat, m: real)
    requires Balanced(opening, bets, users)
    requires i < |bets| && bets[i].status == Active
    ensures Balanced(opening, bets[i := Settled(bets[i], m)],
                     users[bets[i].userId := Credited(users[bets[i].userId], bets[i], m)])
  {
    forall u | u in users {
      NetEffectUpdate(bets, i, Settled(bets[i], m), u);
    }
  }

  /** Forfeiting an active bet at the crash (server.js:145-154) keeps the ledger balanced. */
  lemma ForfeitPreserves(opening: map<UserId, User>, bets: seq<Bet>, users: map<UserId, User>, i: nat)
    requires Balanced(opening, bets, users)
    requires i < |bets| && bets[i].status == Active
    ensures Balanced(opening, bets[i := Forfeited(bets[i])],
                     users[bets[i].userId := Counted(users[bets[i].userId])])
  {
    forall u | u in users {
      NetEffectUpdate(bets, i, Forfeited(bets[i]), u);
    }
  }

  /** Creating a user on first `auth` (server.js:226-230) keeps the ledger balanced. */
  lemma JoinPreserves(opening: map<UserId, User>, bets: seq<Bet>, users: map<UserId, User>, u: UserId, user: User)
    requires Balanced(opening, bets, users) && u !in users
    ensures Balanced(opening[u := user], bets, users[u := user])
  {
    assert NetEffect(bets, u) == NoEffect by {
      NetEffectAbsent(bets, u);
    }
    var users' := users[u := user];
    forall v | v in users' ensures users'[v] == Applied(opening[u := user][v], NetEffect(bets, v)) {
      if v != u { assert users'[v] == users[v]; }
    }
  }
}

=== FILE: options.dfy ===
/** A value that may be missing: JavaScript's `null` slots in server.js. */
module Options {

  datatype Option<+T> = None | Some(value: T)
}
